=== FILE: README.md ===
# Course-sales backend: entitlement, purchase and progress model

This Dafny project models the decision logic of a course-sales backend. The backend lists
lectures only to entitled users. It sells courses through a payment processor and records a
ledger entry for each completed capture. It also tracks which lectures each user has
completed.

- `course.dfy` (module `Course`) models the course controller. The document store becomes a
  `Store` class with these parts:
  - users by id, each with a role and a subscription list
  - the courses and the lectures, in store order
  - the progress records
  - the append-only payment ledger

  The read handlers (`fetchLectures`, `fetchLecture`, `getMyCourses`, `checkout`,
  `getYourProgress`) are functions over that state. `addProgress` and `paymentVerification`
  update it in place, so they are methods. The payment processor is not called: the order id
  it returns and the capture result it reports are parameters. A handler that dereferences a
  document the store did not find ends in `Thrown` with the missing document named.
- `payment.dfy` (module `Payment`) models the payment schema. It gives the record type, the
  required-field validity predicate and `Payment.create`. Creation drops keys outside the
  schema, checks the six required paths and defaults `createdAt` to the creation time (a
  parameter).
- `upload.dfy` (module `Upload`) models the upload storage. The stored file name is
  `<id>.<extension>`, where the extension is `originalname.split(".").pop()` and the
  generated id is a parameter. The destination is one fixed directory.
- `wrappers.dfy` holds `Option` and `Result`.

Two behaviours of the code are kept as written:

- The subscription is a list. The grant that follows a completed capture
  (controllers/course.js:120-132) appends to it without checking ownership. As written the
  handler never reaches that grant (see "## Findings"), so `PaymentVerification` never changes
  the subscription; once the ledger document is corrected (`PaymentVerificationFixed`), a
  course verified twice appears twice.
- Recording progress when the user has no record for the course throws on the missing
  document.

## Model

| member | source | states |
|---|---|---|
| `Payment.Errors` | models/Payment.js:3-31 | A validation error reports exactly the failing paths: a required String path exactly when it is absent or not a string, `amount` exactly when it is absent or not a number, `createdAt` exactly when it is present and not a Date. There are none exactly when the document meets the schema's validity predicate. |
| `Payment.Create` | models/Payment.js:3-34 | A document is accepted exactly when it is valid. A refusal names at least one schema path. An accepted document without `createdAt` is stamped with the creation time. |
| `Payment.CreateToDocument` | models/Payment.js:3-32 | Storing a record and creating it again gives the same record back. |
| `Payment.MissingFieldRejected` | models/Payment.js:4-27 | A document without any one of `paypal_order_id`, `paypal_payment_id`, `payer_id`, `payment_status`, `amount` or `currency` is refused, and the missing path is reported. |
| `Payment.UnknownKeysIgnored` | models/Payment.js:3-32 | Keys that are not schema paths never change whether or how a record is created. |
| `Payment.Valid` | models/Payment.js:4-27 | The schema's validity predicate. A valid document holds every required path. |
| `Payment.Strict` | models/Payment.js:3-32 | Strict mode keeps exactly the document's keys that are schema paths, each with its value unchanged. It drops keys and never adds one. |
| `Upload.Split` | middlewares/multer.js:24 | Splitting gives at least one piece, and no piece contains the separator. |
| `Upload.JoinSplit` | middlewares/multer.js:24 | Joining the pieces of a split with the separator gives back the original string. |
| `Upload.LastPieceIsSuffix` | middlewares/multer.js:24 | The last piece ends the string. It is the whole string exactly when there is no separator, and otherwise a separator precedes it. |
| `Upload.ExtName` | middlewares/multer.js:24 | `split(".").pop()` gives a suffix of the original name that holds no ".". |
| `Upload.FileName` | middlewares/multer.js:22-26 | The stored name is the generated id, then ".", then the extension. |
| `Upload.ExtNameAfterLastDot` | middlewares/multer.js:24 | The extension holds no "." and ends the original name. It is preceded by a "." when the name has one, and it is the whole name when the name has none. |
| `Upload.TrailingDotGivesEmptyExtension` | middlewares/multer.js:24-25 | A name ending in "." has an empty extension, so the stored name is the id followed by ".". |
| `Upload.ExtNameOfDottedName` | middlewares/multer.js:24 | The extension of `prefix.ext` is `ext` whenever `ext` holds no ".". |
| `Upload.FileNameKeepsExtension` | middlewares/multer.js:22-26 | The stored name has the same extension as the original name, whatever the generated id. |
| `Upload.UploadDir` | middlewares/multer.js:11 | The upload directory is the middleware's directory followed by `/uploads`. |
| `Upload.Destination` | middlewares/multer.js:19-21 | The destination is the fixed upload directory, `uploads` inside the middleware's directory. |
| `Upload.DestinationIgnoresFile` | middlewares/multer.js:11-21 | Every file is stored in the same fixed upload directory. |
| `Course.CanAccess` | controllers/course.js:39-45 | An admin may access every course. Anyone else may access exactly the courses their subscription names. |
| `Course.LecturesOf` | controllers/course.js:36 | The lectures found for a course are exactly the store's lectures of that course, each as many times as the store holds it. |
| `Course.FindLecture` | controllers/course.js:52 | A lecture found by id is in the store with that id. "Not found" means no lecture has that id. |
| `Course.FindCourse` | controllers/course.js:75 | A course found by id is in the store with that id. "Not found" means no course has that id. |
| `Course.CoursesIn` | controllers/course.js:68 | The courses listed are exactly the stored courses named by the id list. None is listed twice when stored ids are distinct, even if the list repeats an id. |
| `Course.ProgressOf` | controllers/course.js:161-164 | The records found are exactly the stored records of the (user, course) pair, each as many times as the store holds it. |
| `Course.FirstProgress` | controllers/course.js:142-145 | `findOne` returns the position of the first record of the pair, or nothing when the pair has no record. |
| `Course.FirstProgressByOwner` | controllers/course.js:142-145 | Which record `findOne` picks depends only on which records belong to the pair, not on their completed lectures. |
| `Course.FindOneIsFirstOfFind` | controllers/course.js:142-169 | The record `addProgress` updates is the first record `getYourProgress` reports. One exists exactly when the other does. |
| `Course.MarkCompleted` | controllers/course.js:149-153 | Recording a lecture adds it to the completed list once. The list grows by one exactly when the lecture was new, earlier entries stay in place, and a duplicate-free list stays duplicate-free. |
| `Course.MarkCompletedIdempotent` | controllers/course.js:149-156 | Recording the same lecture twice gives the same list as recording it once. |
| `Course.Percentage` | controllers/course.js:168-170 | There is no value exactly when the course has no lectures. Otherwise the percentage times the lecture count equals the completed count times 100. |
| `Course.PercentageBounded` | controllers/course.js:168-170 | If no more lectures are completed than exist, the percentage lies between 0 and 100. |
| `Course.HalfwayScenario` | controllers/course.js:160-178 | Take a store holding the user, with four lectures of the course among another course's lecture, and a record of the pair holding two completed lectures after a record of the other course. The progress reply is then 200 with 50 percent, 2 completed, 4 lectures, and only the pair's record. |
| `Course.ControllerDocument` | controllers/course.js:114-118 | The controller's ledger document has exactly the keys `orderID`, `captureID` and `status`, and none of them is a schema path. |
| `Course.ControllerDocumentRejected` | controllers/course.js:114-118 | The ledger document the controller builds (`orderID`, `captureID`, `status`) fails the schema, and all six required paths are reported. |
| `Course.SchemaDocumentAccepted` | controllers/course.js:114-118 | A ledger document that fills the schema's paths from the order and the capture is accepted and stored as the capture describes it. |
| `Course.Store.FetchLectures` | controllers/course.js:35-48 | A missing user throws. An admin always gets the course's lectures. Anyone else gets them exactly when the subscription names the course. A present user without access gets 400 "You have not subscribed to this course". An Ok reply holds `LecturesOf` of the store, so each lecture of the course once per stored copy. |
| `Course.Store.FetchLecture` | controllers/course.js:51-64 | An admin gets the lookup result, even when no lecture has the id. For anyone else, a missing lecture throws. A user entitled to the lecture's owning course gets 200 with the lecture, and anyone else gets 400 "You have not subscribed to this course". |
| `Course.Store.MyCourses` | controllers/course.js:67-70 | A missing user throws, and a present user always gets Ok. The user's courses are exactly the stored courses the subscription names. Each is listed once when stored ids are distinct. |
| `Course.Store.Checkout` | controllers/course.js:73-100 | A course already in the subscription gets 400 "You already have this course" and no order. Otherwise exactly one order is requested (intent CAPTURE, currency USD, amount equal to the course price), and the reply is 201 with the order id and the course. Missing user or course throws without an order. |
| `Course.Store.GetYourProgress` | controllers/course.js:160-178 | A user missing from the store throws, as reading `req.user._id` would. With no record of the pair the reply is 404 "No progress found". Otherwise it reports all the pair's records, the first record's completed count, the course's current lecture count and the percentage of those two. |
| `Course.ProgressWithinBounds` | controllers/course.js:160-177 | The reported percentage lies between 0 and 100, and at most as many lectures are completed as the course has, when the store invariant holds and the pair's completed lectures all belong to the course. |
| `Course.LectureAccessFollowsCourse` | controllers/course.js:51-64 | A non-admin user may fetch a lecture exactly when they may list the lectures of its course, and then that listing contains the lecture. |
| `Course.Store.AddProgress` | controllers/course.js:141-157 | A user missing from the store throws and nothing changes. With no record the handler throws and nothing changes. An already-completed lecture leaves the store unchanged and answers "Progress recorded". Otherwise only the first record of the pair gains the lecture at its end, and the reply is 201 "New Progress added". The duplicate-free invariant is kept. |
| `Course.AddProgressTwice` | controllers/course.js:149-156 | Recording the same lecture twice leaves the store as one recording does, and the second reply is "Progress recorded". A missing user or record makes both calls throw with nothing changed. |
| `Course.Store.CompletePurchase` | controllers/course.js:103-138 | Covers what follows a capture. A status other than "COMPLETED" answers 400 "Payment Failed" and changes nothing. A refused ledger document throws and changes nothing. Otherwise the ledger entry is appended first. With user and course present, the course id is then appended to the subscription with earlier entries unchanged, and one empty progress record is appended. Afterwards the user can list the course's lectures, and checkout refuses the course. |
| `Course.Store.PaymentVerification` | controllers/course.js:103-138 | As written, a completed capture always ends in a validation error listing all six required paths. Nothing is recorded and nothing is granted. A failed capture answers "Payment Failed" and changes nothing. |
| `Course.Store.PaymentVerificationFixed` | controllers/course.js:103-138 | With a schema-shaped ledger document, a completed capture appends exactly one ledger record carrying the order id, capture id, payer, status, amount and currency. It then grants the course and creates the empty progress record. A failed capture changes nothing. |
| `Course.VerifyTwice` | controllers/course.js:120-132 | Through the corrected handler, ownership is not re-checked: verifying a completed capture twice names the course twice in the subscription, creates two progress records and two ledger entries. As written, the handler throws before this grant and the subscription never changes. |

## Findings

| source | as written | input that shows it | evidently intended | confidence | as-written member | corrected member |
|---|---|---|---|---|---|---|
| controllers/course.js:114-118 | The ledger entry is created from keys `orderID`, `captureID` and `status`. None of them is a path of the payment schema, which requires `paypal_order_id`, `paypal_payment_id`, `payer_id`, `payment_status`, `amount` and `currency` (models/Payment.js:4-27). | Any capture whose status is "COMPLETED". Creation fails validation before the subscription or the progress record is written. | The schema's paths, filled from the order id and the capture result, so the payment is recorded and the course granted. | high, not executed | `Course.Store.PaymentVerification` (with `Course.ControllerDocumentRejected`) | `Course.Store.PaymentVerificationFixed` (with `Course.SchemaDocumentAccepted`) |

## Left out

- `getAllCourses` and `getSingleCourse` (controllers/course.js:23-32) are not modelled. They are plain reads with no decision in them.
- The payment client setup (controllers/course.js:10-20) and index.js are not modelled. They are wiring only. The processor's order creation and capture are not modelled either: the order id and the capture result are parameters. Processor failures (unreachable, declined request) are not modelled.
- The error-to-response mapping of `TryCatch` is not part of this model. An exception is the `Thrown` outcome with its cause.
- The authenticated user (`req.user`) is the store's user under the request's user id. The authentication middleware is not part of this model. Every handler that reads `req.user` throws `UserMissing` when the id is not in the store.
- Mongoose query and persistence details are not modelled:
  - ObjectId casting in `includes` and in the `_id` list query; ids are plain strings
  - type casting of values handed to `Payment.create` (for example a number given for a String path)
  - the rule that an empty string fails a required String path
  - the `_id` and `__v` fields
  - validation by the User, Courses, Lecture and Progress schemas (models/User.js, models/Courses.js, models/Lecture.js and models/Progress.js are not part of this model)
- `course.price.toString()` is not modelled. The order amount is the price as a number, and its decimal formatting is left out.
- IEEE floating point in the percentage is not modelled. The percentage is an exact real. A course with no lectures gives `NoLectures` instead of NaN or Infinity.
- In the upload middleware, uuid generation, the creation of the upload directory (middlewares/multer.js:14-16) and `path.join` normalisation are not modelled. The multer wiring (`single("file")`) is not modelled either.
- Concurrent requests are not modelled. The model is sequential, so the race between two verifications of one order is not captured.
- Course.LecturesOf: states which lectures are returned and how many times, not their store order (the definition keeps store order).
- Course.CoursesIn: states which courses are returned, not their store order (the definition keeps store order).
- Course.ProgressOf: states which records are returned and how many times, not their store order (the definition keeps store order, and `FindOneIsFirstOfFind` pins down the first one).
- Course.Store.FetchLectures: states which lectures an Ok reply holds and that it equals `LecturesOf`, whose contract gives multiplicity but not order.
- `Progress.find` and `Progress.findOne` (controllers/course.js:142, 161) are both taken to return records in one store order; MongoDB does not promise this without a sort, so `FindOneIsFirstOfFind` rests on that assumption.

=== FILE: course.dfy ===
/**
 * The course controller (controllers/course.js): lecture access gated by the
 * user's subscription, checkout, payment capture and verification, and
 * lecture-completion progress.
 *
 * The document store is an in-memory `Store`: users by id, the courses, the
 * lectures, the progress records and the payment ledger, each collection in
 * the store's natural order. The payment processor is not called: the order
 * id it returns and the capture result it reports are parameters. A handler
 * that dereferences a document the store did not find ends in `Thrown`.
 */
module Course {
  import opened Wrappers
  import Payment

  type UserId = string
  type CourseId = string
  type LectureId = string

  const AdminRole: string := "admin"
  const CaptureCompleted: string := "COMPLETED"
  const OrderIntent: string := "CAPTURE"
  const OrderCurrency: string := "USD"

  const NotSubscribedMessage: string := "You have not subscribed to this course"
  const AlreadyOwnedMessage: string := "You already have this course"
  const PaymentFailedMessage: string := "Payment Failed"
  const PurchasedMessage: string := "Course Purchased Successfully"
  const NoProgressMessage: string := "No progress found"
  const RecordedMessage: string := "Progress recorded"
  const AddedMessage: string := "New Progress added"

  datatype User = User(role: string, subscription: seq<CourseId>)

  /** A course; only the fields the controller reads are kept. */
  datatype CourseDoc = CourseDoc(id: CourseId, price: real)

  datatype Lecture = Lecture(id: LectureId, course: CourseId)

  datatype Progress = Progress(user: UserId, course: CourseId, completedLectures: seq<LectureId>)

  /** Why a handler threw: a missing document it dereferenced, or a refused ledger entry. */
  datatype Fault =
    | UserMissing
    | CourseMissing
    | LectureMissing
    | ProgressMissing
    | LedgerRejected(paths: set<string>)

  /** What a handler answers: a JSON body with its status, an error message, or an exception. */
  datatype Reply<T> =
    | Ok(status: int, body: T)
    | Rejected(status: int, message: string)
    | Thrown(fault: Fault)

  /** The order the checkout asks the payment processor to create. */
  datatype OrderRequest = OrderRequest(intent: string, currencyCode: string, value: real)

  datatype CheckoutBody = CheckoutBody(orderId: string, course: CourseDoc)

  /** What checkout does: the order it requests (if any) and its reply. */
  datatype CheckoutOutcome = CheckoutOutcome(order: Option<OrderRequest>, reply: Reply<CheckoutBody>)

  /** The fields of the processor's capture result that the handlers use. */
  datatype CaptureResult = CaptureResult(
    status: string, captureId: string, payerId: string, amount: real, currencyCode: string)

  /** `completedLectures * 100 / allLectures`, or no value when the course has no lectures. */
  datatype Percent = Ratio(value: real) | NoLectures

  datatype ProgressReport = ProgressReport(
    percentage: Percent, completedLectures: nat, allLectures: nat, records: seq<Progress>)

  predicate Distinct<T(==)>(s: seq<T>) {
    forall i, j :: 0 <= i < j < |s| ==> s[i] != s[j]
  }

  predicate DistinctIds(courses: seq<CourseDoc>) {
    forall i, j :: 0 <= i < j < |courses| ==> courses[i].id != courses[j].id
  }

  /** The entitlement rule: an admin sees every course, anyone else only subscribed ones. */
  predicate CanAccess(user: User, courseId: CourseId): (r: bool)
    ensures user.role == AdminRole ==> r
    ensures user.role != AdminRole ==> (r <==> courseId in user.subscription)
  {
    user.role == AdminRole || courseId in user.subscription
  }

  /** `Lecture.find({ course })`: the course's lectures, in store order. */
  function LecturesOf(lectures: seq<Lecture>, courseId: CourseId): (r: seq<Lecture>)
    ensures forall l :: l in r <==> l in lectures && l.course == courseId
    ensures forall l :: multiset(r)[l] == if l.course == courseId then multiset(lectures)[l] else 0
    ensures |r| <= |lectures|
  {
    if lectures == [] then []
    else
      assert lectures == [lectures[0]] + lectures[1..];
      var rest := LecturesOf(lectures[1..], courseId);
      if lectures[0].course == courseId then [lectures[0]] + rest else rest
  }

  /** `Lecture.findById(id)`: the first lecture with that id. */
  function FindLecture(lectures: seq<Lecture>, id: LectureId): (r: Option<Lecture>)
    ensures r.Some? ==> r.value in lectures && r.value.id == id
    ensures r.None? ==> forall l :: l in lectures ==> l.id != id
  {
    if lectures == [] then None
    else if lectures[0].id == id then Some(lectures[0])
    else FindLecture(lectures[1..], id)
  }

  /** `Courses.findById(id)`: the first course with that id. */
  function FindCourse(courses: seq<CourseDoc>, id: CourseId): (r: Option<CourseDoc>)
    ensures r.Some? ==> r.value in courses && r.value.id == id
    ensures r.None? ==> forall c :: c in courses ==> c.id != id
  {
    if courses == [] then None
    else if courses[0].id == id then Some(courses[0])
    else FindCourse(courses[1..], id)
  }

  /**
   * `Courses.find({ _id: ids })`: the courses whose id is among `ids`, in store
   * order, each once however often `ids` repeats it.
   */
  function CoursesIn(courses: seq<CourseDoc>, ids: seq<CourseId>): (r: seq<CourseDoc>)
    ensures forall c :: c in r <==> c in courses && c.id in ids
    ensures DistinctIds(courses) ==> DistinctIds(r)
  {
    if courses == [] then []
    else
      var rest := CoursesIn(courses[1..], ids);
      if courses[0].id in ids then [courses[0]] + rest else rest
  }

  predicate Owns(p: Progress, userId: UserId, courseId: CourseId) {
    p.user == userId && p.course == courseId
  }

  /** `Progress.find({ user, course })`: every record of the pair, in store order. */
  function ProgressOf(progress: seq<Progress>, userId: UserId, courseId: CourseId): (r: seq<Progress>)
    ensures forall p :: p in r <==> p in progress && Owns(p, userId, courseId)
    ensures forall p :: multiset(r)[p] == if Owns(p, userId, courseId) then multiset(progress)[p] else 0
  {
    if progress == [] then []
    else
      assert progress == [progress[0]] + progress[1..];
      var rest := ProgressOf(progress[1..], userId, courseId);
      if Owns(progress[0], userId, courseId) then [progress[0]] + rest else rest
  }

  /** `Progress.findOne({ user, course })`: the position of the first record of the pair. */
  function FirstProgress(progress: seq<Progress>, userId: UserId, courseId: CourseId): (r: Option<nat>)
    ensures r.Some? ==> r.value < |progress| && Owns(progress[r.value], userId, courseId)
    ensures r.Some? ==> forall j :: 0 <= j < r.value ==> !Owns(progress[j], userId, courseId)
    ensures r.None? ==> forall p :: p in progress ==> !Owns(p, userId, courseId)
  {
    if progress == [] then None
    else if Owns(progress[0], userId, courseId) then Some(0)
    else
      var rest := FirstProgress(progress[1..], userId, courseId);
      if rest.None? then None else Some(rest.value + 1)
  }

  /**
   * The record `findOne` finds (the one `addProgress` updates) is the first of
   * those `find` returns (the one `getYourProgress` reports).
   */
  lemma {:induction false} FindOneIsFirstOfFind(progress: seq<Progress>, userId: UserId, courseId: CourseId)
    ensures FirstProgress(progress, userId, courseId).None? <==> ProgressOf(progress, userId, courseId) == []
    ensures FirstProgress(progress, userId, courseId).Some? ==>
      ProgressOf(progress, userId, courseId)[0] == progress[FirstProgress(progress, userId, courseId).value]
  {
    if progress != [] && !Owns(progress[0], userId, courseId) {
      FindOneIsFirstOfFind(progress[1..], userId, courseId);
    }
  }

  /** `findOne` depends only on which records belong to the pair, not on what they hold. */
  lemma FirstProgressByOwner(a: seq<Progress>, b: seq<Progress>, userId: UserId, courseId: CourseId)
    requires |a| == |b|
    requires forall k :: 0 <= k < |a| ==> (Owns(a[k], userId, courseId) <==> Owns(b[k], userId, courseId))
    ensures FirstProgress(a, userId, courseId) == FirstProgress(b, userId, courseId)
  {
  }

  /** The completed list after `lectureId` is recorded: appended once, never twice. */
  function MarkCompleted(done: seq<LectureId>, lectureId: LectureId): (r: seq<LectureId>)
    ensures forall x :: x in r <==> x in done || x == lectureId
    ensures |r| == if lectureId in done then |done| else |done| + 1
    ensures r[..|done|] == done
    ensures Distinct(done) ==> Distinct(r)
  {
    if lectureId in done then done else done + [lectureId]
  }

  /** Recording the same lecture a second time changes nothing. */
  lemma MarkCompletedIdempotent(done: seq<LectureId>, lectureId: LectureId)
    ensures MarkCompleted(MarkCompleted(done, lectureId), lectureId) == MarkCompleted(done, lectureId)
  {
  }

  /** The completion percentage, with no value for a course without lectures. */
  function Percentage(completed: nat, total: nat): (p: Percent)
    ensures p.NoLectures? <==> total == 0
    ensures p.Ratio? ==> p.value * (total as real) == (completed * 100) as real
  {
    if total == 0 then NoLectures else Ratio((completed * 100) as real / (total as real))
  }

  /** No more lectures completed than exist gives a percentage between 0 and 100. */
  lemma PercentageBounded(completed: nat, total: nat)
    requires completed <= total
    ensures Percentage(completed, total).Ratio? ==>
      0.0 <= Percentage(completed, total).value <= 100.0
  {
  }

  /** The ids of some lectures. */
  function LectureIds(lectures: seq<Lecture>): (ids: set<LectureId>)
    ensures |ids| <= |lectures|
    ensures forall l :: l in lectures ==> l.id in ids
    ensures forall x :: x in ids ==> exists l :: l in lectures && l.id == x
  {
    if lectures == [] then {} else {lectures[0].id} + LectureIds(lectures[1..])
  }

  /** A list without repetitions drawn from a set is no longer than the set. */
  lemma {:induction false} DistinctWithin<T>(s: seq<T>, within: set<T>)
    requires Distinct(s)
    requires forall x :: x in s ==> x in within
    ensures |s| <= |within|
  {
    if s != [] {
      assert forall x :: x in s[1..] ==> x in within - {s[0]} by {
        forall x | x in s[1..] ensures x in within - {s[0]} {
          var k :| 0 <= k < |s[1..]| && s[1..][k] == x;
          assert s[k + 1] == x;
        }
      }
      DistinctWithin(s[1..], within - {s[0]});
    }
  }

  /** The ledger document the controller builds: `{ orderID, captureID, status }`. */
  function ControllerDocument(orderId: string, capture: CaptureResult): (doc: Payment.Document)
    ensures doc.Keys == {"orderID", "captureID", "status"}
    ensures doc.Keys !! Payment.SchemaFields
  {
    map[
      "orderID" := Payment.Str(orderId),
      "captureID" := Payment.Str(capture.captureId),
      "status" := Payment.Str(capture.status)]
  }

  /** A ledger document that fills the schema's paths from the order and the capture. */
  function SchemaDocument(orderId: string, capture: CaptureResult): Payment.Document
  {
    map[
      "paypal_order_id" := Payment.Str(orderId),
      "paypal_payment_id" := Payment.Str(capture.captureId),
      "payer_id" := Payment.Str(capture.payerId),
      "payment_status" := Payment.Str(capture.status),
      "amount" := Payment.Num(capture.amount),
      "currency" := Payment.Str(capture.currencyCode)]
  }

  /** The controller's ledger document has none of the required paths and is always refused. */
  lemma ControllerDocumentRejected(orderId: string, capture: CaptureResult, now: int)
    ensures !Payment.Valid(ControllerDocument(orderId, capture))
    ensures Payment.Create(ControllerDocument(orderId, capture), now)
      == Failure(Payment.RequiredFields)
  {
    var doc := ControllerDocument(orderId, capture);
    var d := Payment.Strict(doc);
    assert d == map[];
    assert Payment.Errors(d) == Payment.RequiredFields;
  }

  /** The schema-shaped document is accepted and stored as the capture describes it. */
  lemma SchemaDocumentAccepted(orderId: string, capture: CaptureResult, now: int)
    ensures Payment.Valid(SchemaDocument(orderId, capture))
    ensures Payment.Create(SchemaDocument(orderId, capture), now)
      == Success(Payment.PaymentRecord(orderId, capture.captureId, capture.payerId,
                                       capture.status, capture.amount, capture.currencyCode, now))
  {
  }

  /** The store: users, catalogue, progress records and the append-only payment ledger. */
  class Store {
    var users: map<UserId, User>
    var courses: seq<CourseDoc>
    var lectures: seq<Lecture>
    var progress: seq<Progress>
    var ledger: seq<Payment.PaymentRecord>

    /** No progress record lists a lecture twice. */
    ghost predicate Valid()
      reads this
    {
      forall p :: p in progress ==> Distinct(p.completedLectures)
    }

    constructor (users0: map<UserId, User>, courses0: seq<CourseDoc>, lectures0: seq<Lecture>)
      ensures Valid()
      ensures users == users0 && courses == courses0 && lectures == lectures0
      ensures progress == [] && ledger == []
    {
      users := users0;
      courses := courses0;
      lectures := lectures0;
      progress := [];
      ledger := [];
    }

    /** `fetchLectures`: the course's lectures, for an admin or a subscriber. */
    function FetchLectures(userId: UserId, courseId: CourseId): (r: Reply<seq<Lecture>>)
      reads this
      ensures userId !in users ==> r == Thrown(UserMissing)
      ensures userId in users ==> (r.Ok? <==> CanAccess(users[userId], courseId))
      ensures userId in users && !CanAccess(users[userId], courseId) ==> r == Rejected(400, NotSubscribedMessage)
      ensures r.Ok? ==> r.status == 200 && forall l :: l in r.body <==> l in lectures && l.course == courseId
      ensures r.Ok? ==> r.body == LecturesOf(lectures, courseId)
      ensures r.Rejected? ==> r == Rejected(400, NotSubscribedMessage)
    {
      var found := LecturesOf(lectures, courseId);
      if userId !in users then Thrown(UserMissing)
      else if users[userId].role == AdminRole then Ok(200, found)
      else if courseId !in users[userId].subscription then Rejected(400, NotSubscribedMessage)
      else Ok(200, found)
    }

    /**
     * `fetchLecture`: one lecture, gated by the course that owns it. An admin
     * gets the lookup's result even when no lecture has that id.
     */
    function FetchLecture(userId: UserId, lectureId: LectureId): (r: Reply<Option<Lecture>>)
      reads this
      ensures userId !in users ==> r == Thrown(UserMissing)
      ensures userId in users && users[userId].role == AdminRole ==>
        r == Ok(200, FindLecture(lectures, lectureId))
      ensures userId in users && users[userId].role != AdminRole ==>
        match FindLecture(lectures, lectureId)
        case None => r == Thrown(LectureMissing)
        case Some(l) =>
          r == if CanAccess(users[userId], l.course) then Ok(200, Some(l)) else Rejected(400, NotSubscribedMessage)
      ensures r.Ok? ==> r.body == FindLecture(lectures, lectureId)
      ensures r.Rejected? ==> r == Rejected(400, NotSubscribedMessage)
    {
      var lecture := FindLecture(lectures, lectureId);
      if userId !in users then Thrown(UserMissing)
      else if users[userId].role == AdminRole then Ok(200, lecture)
      else if lecture.None? then Thrown(LectureMissing)
      else if lecture.value.course !in users[userId].subscription then Rejected(400, NotSubscribedMessage)
      else Ok(200, lecture)
    }

    /** `getMyCourses`: the stored courses the user's subscription names. */
    function MyCourses(userId: UserId): (r: Reply<seq<CourseDoc>>)
      reads this
      ensures userId !in users <==> r.Thrown?
      ensures userId in users ==> r.Ok?
      ensures r.Ok? ==> r.status == 200
      ensures r.Ok? ==> forall c :: c in r.body <==> c in courses && c.id in users[userId].subscription
      ensures r.Ok? && DistinctIds(courses) ==> DistinctIds(r.body)
    {
      if userId !in users then Thrown(UserMissing)
      else Ok(200, CoursesIn(courses, users[userId].subscription))
    }

    /**
     * `checkout`: refuses a course the user already has; otherwise requests one
     * capture order for the course's price in USD and answers with the order id
     * the processor returned.
     */
    function Checkout(userId: UserId, courseId: CourseId, orderId: string): (r: CheckoutOutcome)
      reads this
      ensures userId !in users ==> r == CheckoutOutcome(None, Thrown(UserMissing))
      ensures userId in users && FindCourse(courses, courseId).None? ==>
        r == CheckoutOutcome(None, Thrown(CourseMissing))
      ensures userId in users && FindCourse(courses, courseId).Some? ==>
        var course := FindCourse(courses, courseId).value;
        if courseId in users[userId].subscription then
          r == CheckoutOutcome(None, Rejected(400, AlreadyOwnedMessage))
        else
          r == CheckoutOutcome(Some(OrderRequest(OrderIntent, OrderCurrency, course.price)),
                               Ok(201, CheckoutBody(orderId, course)))
      ensures r.order.Some? <==> r.reply.Ok?
    {
      if userId !in users then CheckoutOutcome(None, Thrown(UserMissing))
      else
        var course := FindCourse(courses, courseId);
        if course.None? then CheckoutOutcome(None, Thrown(CourseMissing))
        else if course.value.id in users[userId].subscription then
          CheckoutOutcome(None, Rejected(400, AlreadyOwnedMessage))
        else
          CheckoutOutcome(
            Some(OrderRequest(OrderIntent, OrderCurrency, course.value.price)),
            Ok(201, CheckoutBody(orderId, course.value)))
    }

    /**
     * `getYourProgress`: 404 without a record; otherwise the first record's
     * completed count against the course's current number of lectures.
     */
    function GetYourProgress(userId: UserId, courseId: CourseId): (r: Reply<ProgressReport>)
      reads this
      ensures r.Thrown? <==> userId !in users
      ensures userId !in users ==> r == Thrown(UserMissing)
      ensures userId in users ==> (r.Rejected? <==> ProgressOf(progress, userId, courseId) == [])
      ensures r.Rejected? ==> r == Rejected(404, NoProgressMessage)
      ensures r.Ok? ==>
        && r.status == 200
        && r.body.records == ProgressOf(progress, userId, courseId)
        && r.body.allLectures == |LecturesOf(lectures, courseId)|
        && r.body.completedLectures == |r.body.records[0].completedLectures|
        && r.body.percentage == Percentage(r.body.completedLectures, r.body.allLectures)
    {
      var records := ProgressOf(progress, userId, courseId);
      if userId !in users then Thrown(UserMissing)
      else if |records| == 0 then Rejected(404, NoProgressMessage)
      else
        var all := |LecturesOf(lectures, courseId)|;
        var completed := |records[0].completedLectures|;
        Ok(200, ProgressReport(Percentage(completed, all), completed, all, records))
    }

    /**
     * `addProgress`: marks `lectureId` completed in the first record of the
     * pair, at most once. The lecture is not checked to belong to the course.
     */
    method AddProgress(userId: UserId, courseId: CourseId, lectureId: LectureId) returns (r: Reply<string>)
      requires Valid()
      modifies this
      ensures Valid()
      ensures users == old(users) && courses == old(courses) && lectures == old(lectures)
      ensures ledger == old(ledger)
      ensures userId !in old(users) ==> r == Thrown(UserMissing) && progress == old(progress)
      ensures userId in old(users) && FirstProgress(old(progress), userId, courseId).None? ==>
        r == Thrown(ProgressMissing) && progress == old(progress)
      ensures userId in old(users) && FirstProgress(old(progress), userId, courseId).Some? ==>
        var i := FirstProgress(old(progress), userId, courseId).value;
        var done := old(progress)[i].completedLectures;
        && progress == old(progress)[i := old(progress)[i].(completedLectures := MarkCompleted(done, lectureId))]
        && r == if lectureId in done then Ok(200, RecordedMessage) else Ok(201, AddedMessage)
    {
      if userId !in users {
        r := Thrown(UserMissing);
        return;
      }
      var found := FirstProgress(progress, userId, courseId);
      if found.None? {
        r := Thrown(ProgressMissing);
        return;
      }
      var i := found.value;
      var record := progress[i];
      if lectureId in record.completedLectures {
        r := Ok(200, RecordedMessage);
        return;
      }
      var updated := record.(completedLectures := MarkCompleted(record.completedLectures, lectureId));
      progress := progress[i := updated];
      r := Ok(201, AddedMessage);
      forall p | p in progress ensures Distinct(p.completedLectures) {
        var k :| 0 <= k < |progress| && progress[k] == p;
        if k != i {
          assert p == old(progress)[k];
        }
      }
    }

    /**
     * What follows a capture: with status "COMPLETED", the ledger entry built
     * from `doc` is created first; then the user's subscription gains the
     * course, a record of progress with no completed lectures is created, and
     * the user is saved. Ownership is not checked again.
     */
    method CompletePurchase(doc: Payment.Document, userId: UserId, courseId: CourseId,
                            captureStatus: string, now: int) returns (r: Reply<string>)
      requires Valid()
      modifies this
      ensures Valid()
      ensures courses == old(courses) && lectures == old(lectures)
      ensures captureStatus != CaptureCompleted ==>
        r == Rejected(400, PaymentFailedMessage) && unchanged(this)
      ensures captureStatus == CaptureCompleted && !Payment.Valid(doc) ==>
        r == Thrown(LedgerRejected(Payment.Create(doc, now).error)) && unchanged(this)
      ensures captureStatus == CaptureCompleted && Payment.Valid(doc) ==>
        ledger == old(ledger) + [Payment.Create(doc, now).value]
      ensures captureStatus == CaptureCompleted && Payment.Valid(doc) && userId !in old(users) ==>
        r == Thrown(UserMissing) && users == old(users) && progress == old(progress)
      ensures captureStatus == CaptureCompleted && Payment.Valid(doc) && userId in old(users)
              && FindCourse(courses, courseId).None? ==>
        r == Thrown(CourseMissing) && users == old(users) && progress == old(progress)
      ensures captureStatus == CaptureCompleted && Payment.Valid(doc) && userId in old(users)
              && FindCourse(courses, courseId).Some? ==>
        && r == Ok(200, PurchasedMessage)
        && users == old(users)[userId := old(users)[userId].(subscription := old(users)[userId].subscription + [courseId])]
        && progress == old(progress) + [Progress(userId, courseId, [])]
      ensures r.Ok? ==> FetchLectures(userId, courseId).Ok?
      ensures r.Ok? ==> forall orderId :: Checkout(userId, courseId, orderId).order.None?
    {
      if captureStatus != CaptureCompleted {
        r := Rejected(400, PaymentFailedMessage);
        return;
      }
      var entry := Payment.Create(doc, now);
      if entry.Failure? {
        r := Thrown(LedgerRejected(entry.error));
        return;
      }
      ledger := ledger + [entry.value];
      if userId !in users {
        r := Thrown(UserMissing);
        return;
      }
      var user := users[userId];
      var course := FindCourse(courses, courseId);
      if course.None? {
        r := Thrown(CourseMissing);
        return;
      }
      user := user.(subscription := user.subscription + [course.value.id]);
      progress := progress + [Progress(userId, course.value.id, [])];
      users := users[userId := user];
      r := Ok(200, PurchasedMessage);
    }

    /**
     * `paymentVerification` as written: the ledger document carries the keys
     * `orderID`, `captureID` and `status`, which the schema does not have, so a
     * completed capture always ends in a validation error and nothing is granted.
     */
    method PaymentVerification(userId: UserId, courseId: CourseId, orderId: string,
                               capture: CaptureResult, now: int) returns (r: Reply<string>)
      requires Valid()
      modifies this
      ensures Valid()
      ensures capture.status != CaptureCompleted ==>
        r == Rejected(400, PaymentFailedMessage) && unchanged(this)
      ensures capture.status == CaptureCompleted ==>
        r == Thrown(LedgerRejected(Payment.RequiredFields)) && unchanged(this)
    {
      ControllerDocumentRejected(orderId, capture, now);
      r := CompletePurchase(ControllerDocument(orderId, capture), userId, courseId, capture.status, now);
    }

    /**
     * `paymentVerification` with the ledger document filled from the schema's
     * paths: a completed capture is recorded and entitles the user.
     */
    method PaymentVerificationFixed(userId: UserId, courseId: CourseId, orderId: string,
                                    capture: CaptureResult, now: int) returns (r: Reply<string>)
      requires Valid()
      modifies this
      ensures Valid()
      ensures courses == old(courses) && lectures == old(lectures)
      ensures capture.status != CaptureCompleted ==>
        r == Rejected(400, PaymentFailedMessage) && unchanged(this)
      ensures capture.status == CaptureCompleted ==>
        ledger == old(ledger) + [Payment.PaymentRecord(orderId, capture.captureId, capture.payerId,
                                                       capture.status, capture.amount, capture.currencyCode, now)]
      ensures capture.status == CaptureCompleted && (userId !in old(users) || FindCourse(courses, courseId).None?) ==>
        r.Thrown? && users == old(users) && progress == old(progress)
      ensures capture.status == CaptureCompleted && userId in old(users) && FindCourse(courses, courseId).Some? ==>
        && r == Ok(200, PurchasedMessage)
        && users == old(users)[userId := old(users)[userId].(subscription := old(users)[userId].subscription + [courseId])]
        && progress == old(progress) + [Progress(userId, courseId, [])]
      ensures r.Ok? ==> FetchLectures(userId, courseId).Ok?
      ensures r.Ok? ==> forall orderId :: Checkout(userId, courseId, orderId).order.None?
    {
      SchemaDocumentAccepted(orderId, capture, now);
      r := CompletePurchase(SchemaDocument(orderId, capture), userId, courseId, capture.status, now);
    }
  }

  /** Non-admins get a single lecture exactly when they may list its course's lectures. */
  lemma LectureAccessFollowsCourse(s: Store, userId: UserId, lectureId: LectureId)
    requires userId in s.users && FindLecture(s.lectures, lectureId).Some?
    ensures var l := FindLecture(s.lectures, lectureId).value;
      && (s.FetchLecture(userId, lectureId).Ok? <==> s.FetchLectures(userId, l.course).Ok?)
      && (s.FetchLecture(userId, lectureId).Ok? ==> l in s.FetchLectures(userId, l.course).body)
  {
  }

  /**
   * With a record whose completed lectures all belong to the course, the
   * reported percentage lies between 0 and 100.
   */
  lemma ProgressWithinBounds(s: Store, userId: UserId, courseId: CourseId)
    requires s.Valid()
    requires forall p :: p in ProgressOf(s.progress, userId, courseId) ==>
      forall x :: x in p.completedLectures ==> x in LectureIds(LecturesOf(s.lectures, courseId))
    ensures s.GetYourProgress(userId, courseId).Ok? ==>
      var report := s.GetYourProgress(userId, courseId).body;
      report.completedLectures <= report.allLectures
      && (report.percentage.Ratio? ==> 0.0 <= report.percentage.value <= 100.0)
  {
    var records := ProgressOf(s.progress, userId, courseId);
    if records != [] {
      var done := records[0].completedLectures;
      var course := LecturesOf(s.lectures, courseId);
      assert records[0] in s.progress;
      DistinctWithin(done, LectureIds(course));
      PercentageBounded(|done|, |course|);
    }
  }

  /**
   * End-to-end: a course with 4 lectures (among those of another course) and
   * a record with 2 of them completed (after a record of the other course)
   * reports 50 percent.
   */
  lemma HalfwayScenario(s: Store)
    requires s.lectures == [Lecture("l1", "c"), Lecture("l2", "c"), Lecture("x", "d"),
                            Lecture("l3", "c"), Lecture("l4", "c")]
    requires s.progress == [Progress("u", "d", []), Progress("u", "c", ["l1", "l2"])]
    requires "u" in s.users
    ensures s.GetYourProgress("u", "c")
      == Ok(200, ProgressReport(Ratio(50.0), 2, 4, [Progress("u", "c", ["l1", "l2"])]))
  {
    ScenarioLectures(s.lectures);
    ScenarioRecords(s.progress);
    assert Percentage(2, 4) == Ratio(50.0);
  }

  lemma ScenarioLectures(ls: seq<Lecture>)
    requires ls == [Lecture("l1", "c"), Lecture("l2", "c"), Lecture("x", "d"),
                    Lecture("l3", "c"), Lecture("l4", "c")]
    ensures |LecturesOf(ls, "c")| == 4
  {
    assert "d" != "c" by { assert "d"[0] != "c"[0]; }
    var t4, t3, t2, t1 := ls[4..], ls[3..], ls[2..], ls[1..];
    assert t4[1..] == [];
    assert t3[1..] == t4 && t2[1..] == t3 && t1[1..] == t2 && ls[1..] == t1;
    assert |LecturesOf(t4, "c")| == 1;
    assert |LecturesOf(t3, "c")| == 2;
    assert |LecturesOf(t2, "c")| == 2;
    assert |LecturesOf(t1, "c")| == 3;
  }

  lemma ScenarioRecords(ps: seq<Progress>)
    requires ps == [Progress("u", "d", []), Progress("u", "c", ["l1", "l2"])]
    ensures ProgressOf(ps, "u", "c") == [Progress("u", "c", ["l1", "l2"])]
  {
    assert "d" != "c" by { assert "d"[0] != "c"[0]; }
    assert ProgressOf(ps[1..], "u", "c") == [ps[1]];
  }

  /**
   * Verifying a completed capture twice for the same user and course, through
   * the corrected handler: the grant does not check ownership again, so the
   * subscription names the course twice and the pair has two progress records.
   * As written, `PaymentVerification` throws before any grant and never
   * changes the subscription.
   */
  method VerifyTwice(s: Store, userId: UserId, courseId: CourseId, orderId: string,
                     capture: CaptureResult, now: int) returns (first: Reply<string>, second: Reply<string>)
    requires s.Valid()
    requires capture.status == CaptureCompleted
    requires userId in s.users && FindCourse(s.courses, courseId).Some?
    modifies s
    ensures first == second == Ok(200, PurchasedMessage)
    ensures userId in s.users
    ensures s.users[userId].subscription == old(s.users[userId].subscription) + [courseId, courseId]
    ensures s.progress == old(s.progress) + [Progress(userId, courseId, []), Progress(userId, courseId, [])]
    ensures |s.ledger| == |old(s.ledger)| + 2
  {
    first := s.PaymentVerificationFixed(userId, courseId, orderId, capture, now);
    second := s.PaymentVerificationFixed(userId, courseId, orderId, capture, now);
  }

  /** Recording a lecture twice leaves the store as one recording does. */
  method AddProgressTwice(s: Store, userId: UserId, courseId: CourseId, lectureId: LectureId)
    returns (first: Reply<string>, second: Reply<string>)
    requires s.Valid()
    modifies s
    ensures s.Valid()
    ensures userId !in old(s.users) ==>
      first == second == Thrown(UserMissing) && s.progress == old(s.progress)
    ensures userId in old(s.users) && FirstProgress(old(s.progress), userId, courseId).None? ==>
      first == second == Thrown(ProgressMissing) && s.progress == old(s.progress)
    ensures userId in old(s.users) && FirstProgress(old(s.progress), userId, courseId).Some? ==>
      var i := FirstProgress(old(s.progress), userId, courseId).value;
      var done := old(s.progress)[i].completedLectures;
      && s.progress == old(s.progress)[i := old(s.progress)[i].(completedLectures := MarkCompleted(done, lectureId))]
      && first.Ok? && second == Ok(200, RecordedMessage)
  {
    ghost var before := s.progress;
    first := s.AddProgress(userId, courseId, lectureId);
    FirstProgressByOwner(before, s.progress, userId, courseId);
    second := s.AddProgress(userId, courseId, lectureId);
  }
}

=== FILE: payment.dfy ===
/**
 * The payment ledger record (models/Payment.js): a schema of six required
 * fields and a `createdAt` timestamp that defaults to the creation time.
 *
 * `Payment.create(doc)` is modelled as `Create(doc, now)`: the document is a
 * map from keys to values; keys that are not schema paths are dropped (the
 * schema is strict), every required path must hold a value of its declared
 * type, and an absent `createdAt` takes the clock reading `now`.
 */
module Payment {
  import opened Wrappers

  /** A value stored under one key of a document handed to `Payment.create`. */
  datatype Value = Str(text: string) | Num(number: real) | Date(millis: int)

  type Document = map<string, Value>

  /** A ledger entry as the schema stores it. */
  datatype PaymentRecord = PaymentRecord(
    paypalOrderId: string,
    paypalPaymentId: string,
    payerId: string,
    paymentStatus: string,
    amount: real,
    currency: string,
    createdAt: int)

  /** The required paths of type String. */
  const StringFields: set<string> :=
    {"paypal_order_id", "paypal_payment_id", "payer_id", "payment_status", "currency"}

  /** Every required path: the strings and the Number `amount`. */
  const RequiredFields: set<string> := StringFields + {"amount"}

  /** Every path of the schema, the optional `createdAt` included. */
  const SchemaFields: set<string> := RequiredFields + {"createdAt"}

  predicate HasString(doc: Document, key: string) {
    key in doc && doc[key].Str?
  }

  predicate HasNumber(doc: Document, key: string) {
    key in doc && doc[key].Num?
  }

  /** `createdAt` is either absent (the default applies) or a Date. */
  predicate CreatedAtOk(doc: Document) {
    "createdAt" in doc ==> doc["createdAt"].Date?
  }

  /** The schema's validity predicate: which documents the model accepts. */
  predicate Valid(doc: Document): (ok: bool)
    ensures ok ==> RequiredFields <= doc.Keys
  {
    && HasString(doc, "paypal_order_id")
    && HasString(doc, "paypal_payment_id")
    && HasString(doc, "payer_id")
    && HasString(doc, "payment_status")
    && HasNumber(doc, "amount")
    && HasString(doc, "currency")
    && CreatedAtOk(doc)
  }

  /** The paths a validation error reports, computed path by path. */
  function Errors(doc: Document): (paths: set<string>)
    ensures paths <= SchemaFields
    ensures paths == {} <==> Valid(doc)
    ensures forall k :: k in StringFields ==> (k in paths <==> !HasString(doc, k))
    ensures "amount" in paths <==> !HasNumber(doc, "amount")
    ensures "createdAt" in paths <==> !CreatedAtOk(doc)
  {
    var missing := set key | key in StringFields && !HasString(doc, key);
    var paths := missing
      + (if HasNumber(doc, "amount") then {} else {"amount"})
      + (if CreatedAtOk(doc) then {} else {"createdAt"});
    assert !HasString(doc, "paypal_order_id") ==> "paypal_order_id" in missing;
    assert !HasString(doc, "paypal_payment_id") ==> "paypal_payment_id" in missing;
    assert !HasString(doc, "payer_id") ==> "payer_id" in missing;
    assert !HasString(doc, "payment_status") ==> "payment_status" in missing;
    assert !HasString(doc, "currency") ==> "currency" in missing;
    paths
  }

  /** The document restricted to the schema's paths (strict mode). */
  function Strict(doc: Document): (kept: Document)
    ensures kept.Keys <= SchemaFields
    ensures kept.Keys == doc.Keys * SchemaFields
    ensures forall k :: k in kept ==> kept[k] == doc[k]
  {
    map k | k in doc && k in SchemaFields :: doc[k]
  }

  /** `Payment.create`: validation, then the record with its default timestamp. */
  function Create(doc: Document, now: int): (r: Result<PaymentRecord, set<string>>)
    ensures r.Success? <==> Valid(doc)
    ensures r.Failure? ==> r.error != {} && r.error <= SchemaFields
    ensures r.Success? && "createdAt" !in doc ==> r.value.createdAt == now
  {
    var d := Strict(doc);
    if !Valid(d) then
      Failure(Errors(d))
    else
      Success(PaymentRecord(
        d["paypal_order_id"].text,
        d["paypal_payment_id"].text,
        d["payer_id"].text,
        d["payment_status"].text,
        d["amount"].number,
        d["currency"].text,
        if "createdAt" in d then d["createdAt"].millis else now))
  }

  /** The document that stores a record, `createdAt` included. */
  function ToDocument(rec: PaymentRecord): (doc: Document)
    ensures doc.Keys == SchemaFields
  {
    map[
      "paypal_order_id" := Str(rec.paypalOrderId),
      "paypal_payment_id" := Str(rec.paypalPaymentId),
      "payer_id" := Str(rec.payerId),
      "payment_status" := Str(rec.paymentStatus),
      "amount" := Num(rec.amount),
      "currency" := Str(rec.currency),
      "createdAt" := Date(rec.createdAt)]
  }

  /** Storing a record and creating it again gives the same record back. */
  lemma CreateToDocument(rec: PaymentRecord, now: int)
    ensures Create(ToDocument(rec), now) == Success(rec)
  {
  }

  /** A document missing any required path is refused, and the path is reported. */
  lemma MissingFieldRejected(doc: Document, key: string, now: int)
    requires key in RequiredFields && key !in doc
    ensures Create(doc, now).Failure?
    ensures key in Create(doc, now).error
  {
  }

  /** Keys outside the schema never change the outcome of `Create`. */
  lemma UnknownKeysIgnored(doc: Document, extra: Document, now: int)
    requires extra.Keys !! SchemaFields
    ensures Create(doc + extra, now) == Create(doc, now)
  {
    assert Strict(doc + extra) == Strict(doc);
  }
}

=== FILE: upload.dfy ===
/**
 * The disk storage of the upload middleware (middlewares/multer.js): every
 * uploaded file goes to one fixed directory, under the name
 * `<id>.<extension>`, where the extension is what follows the last "." of the
 * file's original name (`originalname.split(".").pop()`). The generated id is a
 * parameter.
 */
module Upload {

  const Dot: char := '.'

  /** The name of the upload directory inside the middleware's own directory. */
  const UploadsSubdir: string := "uploads"

  /** What the storage engine is told about an incoming file. */
  datatype UploadedFile = UploadedFile(originalname: string)

  /** `s.split(sep)`: the pieces between separators, empty ones included. */
  function Split(s: string, sep: char): (parts: seq<string>)
    ensures |parts| >= 1
    ensures forall i :: 0 <= i < |parts| ==> sep !in parts[i]
    decreases |s|
  {
    if s == [] then [""]
    else
      var rest := Split(s[1..], sep);
      if s[0] == sep then [""] + rest
      else [[s[0]] + rest[0]] + rest[1..]
  }

  /** `parts.join(sep)`, the inverse of `Split`. */
  function Join(parts: seq<string>, sep: char): string
    requires |parts| >= 1
  {
    if |parts| == 1 then parts[0] else parts[0] + [sep] + Join(parts[1..], sep)
  }

  /** Splitting and joining back gives the original string. */
  lemma {:induction false} JoinSplit(s: string, sep: char)
    ensures Join(Split(s, sep), sep) == s
    decreases |s|
  {
    if s != [] {
      var rest := Split(s[1..], sep);
      JoinSplit(s[1..], sep);
      if s[0] == sep {
        assert [""] + rest == [""] + rest[..];
        assert ([""] + rest)[1..] == rest;
        assert s == [sep] + s[1..];
      } else {
        var parts := [[s[0]] + rest[0]] + rest[1..];
        if |rest| == 1 {
          assert s == [s[0]] + s[1..];
        } else {
          assert parts[1..] == rest[1..];
          assert s == [s[0]] + s[1..];
        }
      }
    }
  }

  function Last(parts: seq<string>): string
    requires |parts| >= 1
  {
    parts[|parts| - 1]
  }

  /**
   * The last piece of a split is a suffix of the string; it is the whole
   * string exactly when there is no separator, and otherwise it is preceded
   * by a separator.
   */
  lemma {:induction false} LastPieceIsSuffix(s: string, sep: char)
    ensures |Split(s, sep)| == 1 <==> sep !in s
    ensures |Split(s, sep)| == 1 ==> Last(Split(s, sep)) == s
    ensures |Last(Split(s, sep))| <= |s|
    ensures s[|s| - |Last(Split(s, sep))|..] == Last(Split(s, sep))
    ensures |Split(s, sep)| > 1 ==>
      |Last(Split(s, sep))| < |s| && s[|s| - |Last(Split(s, sep))| - 1] == sep
    decreases |s|
  {
    if s != [] {
      var t := s[1..];
      var rest := Split(t, sep);
      LastPieceIsSuffix(t, sep);
      var last := Last(rest);
      assert s[1..][|t| - |last|..] == s[|s| - |last|..];
      if s[0] == sep {
        assert Last(Split(s, sep)) == last;
        if |rest| == 1 {
          assert s[|s| - |last| - 1] == s[0];
        } else {
          assert s[|s| - |last| - 1] == t[|t| - |last| - 1];
        }
      } else {
        if |rest| == 1 {
          assert Split(s, sep) == [[s[0]] + t];
          assert s == [s[0]] + t;
        } else {
          assert Last(Split(s, sep)) == last;
          assert s[|s| - |last| - 1] == t[|t| - |last| - 1];
          assert sep in t;
        }
      }
    }
  }

  /** `originalname.split(".").pop()`: a dot-free suffix of the name. */
  function ExtName(originalname: string): (ext: string)
    ensures Dot !in ext
    ensures |ext| <= |originalname| && originalname[|originalname| - |ext|..] == ext
  {
    LastPieceIsSuffix(originalname, Dot);
    Last(Split(originalname, Dot))
  }

  /** The `filename` callback: the generated id, a dot, and the extension. */
  function FileName(id: string, file: UploadedFile): (name: string)
    ensures |name| == |id| + 1 + |ExtName(file.originalname)|
    ensures name[..|id|] == id && name[|id|] == Dot
    ensures name[|id| + 1..] == ExtName(file.originalname)
  {
    id + [Dot] + ExtName(file.originalname)
  }

  /** The fixed upload directory, `path.join(moduleDir, "uploads")`. */
  function UploadDir(moduleDir: string): (dir: string)
    ensures |dir| == |moduleDir| + 8 && dir[..|moduleDir|] == moduleDir && dir[|moduleDir|..] == "/uploads"
  {
    moduleDir + "/" + UploadsSubdir
  }

  /** The `destination` callback: the same directory whatever the file. */
  function Destination(moduleDir: string, file: UploadedFile): (dir: string)
    ensures dir == UploadDir(moduleDir)
  {
    UploadDir(moduleDir)
  }

  /**
   * The extension is the text after the last "." of the original name: it
   * holds no ".", it ends the name, and a "." stands right before it unless the
   * name has no "." at all, in which case it is the whole name.
   */
  lemma ExtNameAfterLastDot(originalname: string)
    ensures Dot !in ExtName(originalname)
    ensures |ExtName(originalname)| <= |originalname|
    ensures originalname[|originalname| - |ExtName(originalname)|..] == ExtName(originalname)
    ensures Dot !in originalname ==> ExtName(originalname) == originalname
    ensures Dot in originalname ==>
      var k := |originalname| - |ExtName(originalname)| - 1;
      0 <= k && originalname[k] == Dot
  {
    LastPieceIsSuffix(originalname, Dot);
  }

  /** A name ending in "." has an empty extension, so the stored name ends in ".". */
  lemma TrailingDotGivesEmptyExtension(id: string, file: UploadedFile)
    requires |file.originalname| > 0 && file.originalname[|file.originalname| - 1] == Dot
    ensures ExtName(file.originalname) == ""
    ensures FileName(id, file) == id + "."
  {
    ExtNameAfterLastDot(file.originalname);
  }

  /** Any string of the form `prefix.ext` with a dot-free `ext` has extension `ext`. */
  lemma ExtNameOfDottedName(prefix: string, ext: string)
    requires Dot !in ext
    ensures ExtName(prefix + [Dot] + ext) == ext
  {
    var s := prefix + [Dot] + ext;
    var e := ExtName(s);
    ExtNameAfterLastDot(s);
    assert s[|prefix|] == Dot;
    assert Dot in s;
    // The dot before `ext` bounds the extension: a longer one would contain
    // it, a shorter one would leave a dot inside `ext`.
    assert s[|s| - |ext| - 1] == Dot;
    assert s[|s| - |ext|..] == ext;
  }

  /** The stored name keeps the original extension, whatever the generated id. */
  lemma FileNameKeepsExtension(id: string, file: UploadedFile)
    ensures ExtName(FileName(id, file)) == ExtName(file.originalname)
  {
    ExtNameAfterLastDot(file.originalname);
    ExtNameOfDottedName(id, ExtName(file.originalname));
  }

  /** Every file goes to the same directory. */
  lemma DestinationIgnoresFile(moduleDir: string, f: UploadedFile, g: UploadedFile)
    ensures Destination(moduleDir, f) == Destination(moduleDir, g) == UploadDir(moduleDir)
  {
  }
}

=== FILE: wrappers.dfy ===
/** Option and Result datatypes shared by the other modules. */
module Wrappers {

  /** An optional value: a document lookup that may find nothing. */
  datatype Option<+T> = None | Some(value: T)

  /** The outcome of an operation that may be refused with an error value. */
  datatype Result<+R, +E> = Success(value: R) | Failure(error: E)
}
